=== FILE: README.md ===
# Blog application core in Dafny

This project models the logic of a small Django blog application:

- **Saving a post** (`Post.save`). A post saved without a slug gets one derived from its title. If another post already holds that base slug, the suffixes `-1`, `-2`, … are tried in turn until one is free. Whenever the post has content, its reading time is recomputed as `max(1, round(words / 200))`. The record is then written to the posts table, where the slug column is unique.
- **Form validation** for registration, profile update and login. This covers the field hooks, their order, the cross-field password check, case-insensitive uniqueness against the user table, and the login fallback from username to e-mail.
- **Counting post views** (`blog_detail`). A per-session flag `post_viewed_<id>` makes each session count a post at most once.

The model is made of pure functions over immutable data: strings, sequences, sets and maps. The only methods are the slug search loop and the save operations built on it. The parts the application takes from elsewhere are parameters:

- the framework's `slugify` (`string -> string`);
- the authentication backend `authenticate` (`(string, string) -> Option<User>`);
- the e-mail syntax check of the e-mail field (`string -> bool`);
- the ids the database assigns (`freshPk`).

Modules, one per concern:

| module | file | what it holds |
|---|---|---|
| `Optional` | text.dfy | `Option` |
| `Text` | text.dfy | Python's `str.isspace` set, ASCII letters/digits, ASCII case folding for `__iexact`, `str(n)` and its inverse |
| `Patterns` | patterns.dfy | the single-class regular expressions of the forms (`re.match('^[..]+$')`, `re.search('[..]')`) |
| `Slugs` | slugs.dfy | the slug candidates and the search loop |
| `ReadTime` | readtime.dfy | `str.split()`, round-half-to-even, reading minutes |
| `Models` | models.dfy | `Post`, `Post.save`, the table write with its unique slug index |
| `Forms` | forms.dfy | registration, profile update and login validation |
| `Views` | views.dfy | `blog_detail`'s view counter |

## Behaviour worth noting

- The reading time is recomputed only when the content is non-empty (`if self.content:`), not on every save.
- Posts are the only entity with slug generation. `Category` has no `save` override.
- The listing view returns all posts. There is no search or category filter to model.
- When `n` slugs `base`, `base-1`, …, `base-(n-1)` are in use, the next post with that base gets `base-n` (`Slugs.SuccessiveCollisions`).

## Model

| member | source | states |
|---|---|---|
| Slugs.UniqueSlug | blog/models.py:34-42 | The slug returned is held by no other post. It is the first free candidate: `base` itself when free, else `base-k` for the least k ≥ 1 whose candidate is free. The loop stops after at most one step per taken slug. |
| Slugs.CandidateInjective | blog/models.py:35-40 | Different loop steps try different slugs (`base` and `base-k` for distinct k never coincide). |
| Slugs.CandidatesBelowSize | blog/models.py:35-40 | The first k steps try exactly k distinct slugs. |
| Slugs.TakenPrefixBound | blog/models.py:38-40 | If the first k candidates are all taken, at least k slugs are taken, so the loop terminates on a finite table. |
| Slugs.LeastFreeUnique | blog/models.py:38-42 | At most one step is the least free one, so the slug chosen is determined by the base and the taken set. |
| Slugs.SuccessiveCollisions | blog/models.py:34-42 | When exactly `base`, `base-1`, …, `base-(n-1)` are taken, the next post with that base gets `base-n`. |
| Models.Save | blog/models.py:31-48 | A non-empty slug is kept. An empty slug becomes the first free candidate for `slugify(title)` among the other posts' slugs, excluding the post's own row by key. With content, the reading time becomes the content's reading minutes (≥ 1). Without content, the reading time is unchanged. No other field changes. |
| Models.Write | blog/models.py:49 | A slug held by another row is refused (the unique slug index declared at line 21); that is the only refusal modelled. Otherwise the post's row replaces the row with its key in place when one exists, and is appended when the key is new. The result holds exactly the written row and the other rows. It grows by one row exactly on an insert, and keys and slugs stay distinct. |
| Models.UpdateRow | blog/models.py:49 | An update keeps the table's length and order, replaces exactly the row with the post's key, and keeps keys and slugs distinct. |
| Models.InsertRow | blog/models.py:49 | An insert under an unused key adds exactly one row and keeps keys and slugs distinct. |
| Models.SaveAndWrite | blog/models.py:31-49 | A first save (empty slug) never violates the unique slug index. Neither does re-saving a stored post with its own slug. The table stays well formed. |
| ReadTime.WordLength | blog/models.py:46 | The run of non-whitespace at the start of a string: it contains no whitespace and cannot be extended. |
| ReadTime.Split | blog/models.py:46 | `str.split()` yields non-empty, whitespace-free words. There are none exactly when the content is all whitespace. |
| ReadTime.SplitWord | blog/models.py:46 | A single whitespace-free word splits to itself. |
| ReadTime.SplitAtSpace | blog/models.py:46 | A whitespace character separates: `split(a + c + b) == split(a) + split(b)`. Together with `SplitWord` this determines `Split` on every string. |
| ReadTime.RoundHalfEven | blog/models.py:47 | `round(n / d)` is within d/2 of n/d, and a tie goes to the even integer. |
| ReadTime.RoundHalfEvenUnique | blog/models.py:47 | Any integer nearest to n/d with ties to even equals `RoundHalfEven(n, d)`, so the characterisation and the computation agree. |
| ReadTime.ReadMinutes | blog/models.py:47 | `max(1, round(words / 200))` is at least 1. It is exactly 1 iff words < 300. Above 100 words it is the half-to-even rounding of words/200. |
| ReadTime.ContentMinutes | blog/models.py:46-47 | The reading time of a body is at least one minute, and exactly one for whitespace-only content. |
| ReadTime.ReadMinutesExamples | blog/models.py:47 | 0, 100, 200 → 1; 300, 401, 500 → 2 (1.5 and 2.5 both go to 2); 700 → 4. |
| Text.NatToString | blog/models.py:39 | The counter is written as decimal digits with no leading zero. |
| Text.DecimalRoundTrip | blog/models.py:39 | Parsing the formatted counter gives the counter back. |
| Text.NatToStringInjective | blog/models.py:39 | Different counters format differently. |
| Text.SameIgnoringCaseIff | blog/forms.py:88 | The `__iexact` comparison holds iff the strings have equal length and match character by character up to the case of ASCII letters. |
| Patterns.FullMatch | blog/forms.py:74 | `^[class]+$` accepts exactly the non-empty strings whose every character is in the class. |
| Patterns.Search | blog/forms.py:104 | `re.search([class])` succeeds exactly when some character is in the class. |
| Forms.CharFieldClean | blog/forms.py:28-69 | The framework's own field check: an empty value is "required". Otherwise the declared `max_length` (30) and `min_length` (8) apply, and a value holding a null character is refused, as every text field does. An accepted value is unchanged. |
| Forms.EmailFieldClean | blog/forms.py:50-54 | The required e-mail field accepts exactly the non-empty values that pass the syntax check and hold no null character. |
| Forms.CleanName | blog/forms.py:72-83 | A first or last name is accepted iff it is non-empty and all ASCII letters. Otherwise the field's "letters only" error is given. |
| Forms.NameField | blog/forms.py:72-83 | With the field checks, a name passes iff it is 1 to 30 ASCII letters. |
| Forms.CleanUsername | blog/forms.py:86-92 | A username taken by any user, ignoring case, always gets "already taken", whatever its characters. An untaken one is accepted iff it is non-empty and made only of `[A-Za-z0-9_]`. |
| Forms.RegisterUsername | blog/forms.py:86-92 | With the field checks: the username passes iff it is 1 to 30 word characters and untaken. "Already taken" is reported iff the field accepted it (1 to 30 characters, no null character) and it is taken. |
| Forms.CleanEmail | blog/forms.py:95-99 | A registration e-mail is refused iff some user has it, ignoring case. |
| Forms.RegisterEmail | blog/forms.py:95-99 | With the field checks: the address passes iff the field accepts it and it is free. "Already registered" is reported iff the field accepts it and it is in use. |
| Forms.CleanPassword | blog/forms.py:102-106 | A password is accepted iff it contains at least one ASCII letter and at least one digit. |
| Forms.RegisterPassword | blog/forms.py:102-106 | With the field's `min_length`, a password passes iff it is at least 8 characters, holds no null character, and has a letter and a digit. |
| Forms.RegisterConfirm | blog/forms.py:65-69 | The confirmation passes iff it is non-empty and holds no null character. A missing one gets the "please confirm" error. |
| Forms.PasswordsMismatch | blog/forms.py:114-115 | The mismatch holds iff both passwords are present, non-empty and different. |
| Forms.AddMismatch | blog/forms.py:114-115 | The mismatch error goes on the confirmation field and leaves every other field's errors alone. |
| Forms.ValidateRegistration | blog/forms.py:28-117 | No errors iff every field meets its rule (letters-only names, a free well-formed username, a free e-mail address, a strong password, a matching confirmation). For each of the six fields, it has no error iff it meets its own rule. "Already taken" iff the field accepted the username and it is taken. "Passwords do not match" iff the password passed its own checks and the confirmation passed its checks but differs. |
| Forms.CleanProfileUsername | blog/forms.py:181-186 | On profile update, a username is refused iff a user other than the one being edited has it, ignoring case. There is no character check. |
| Forms.CleanProfileEmail | blog/forms.py:189-194 | On profile update, an address is refused iff a user other than the one being edited has it, ignoring case. |
| Forms.ProfileUsername | blog/forms.py:181-186 | With the field checks: the username passes iff it is 1 to 30 characters with no null character and no other user holds it. "Already exists" iff the field accepted it and another user holds it. |
| Forms.ProfileEmail | blog/forms.py:189-194 | With the field checks: the address passes iff the field accepts it and no other user holds it. "Already registered" iff the field accepts it and another user holds it. |
| Forms.ValidateProfileUpdate | blog/forms.py:160-194 | No errors iff the names are 1 to 30 letters and the username and address are accepted by their fields and not held by another user. Each of the four fields has no error iff it meets its own rule. The form has no password fields. |
| Forms.KeepingOwnIdentityIsAccepted | blog/forms.py:181-194 | If users are distinct ignoring case, a user resubmitting their own username and e-mail (in any case) never gets a uniqueness error. |
| Forms.ProfileSkipsCharacterCheck | blog/forms.py:181-186 | `a-b` is kept by profile update but refused by registration. |
| Forms.UsersWithEmail | blog/forms.py:144 | The rows whose e-mail equals the identifier ignoring case. The result is empty iff no row matches, and has two or more entries iff two different rows match. |
| Forms.MatchCountStep | blog/forms.py:144 | Whether none, or at least two, of the rows match follows from the first row and the count over the remaining rows. |
| Forms.MultipleMatchesAreDistinctUsers | blog/forms.py:144 | With distinct ids, the lookup finds two or more rows iff two different users have the address. That is when `get` raises. |
| Forms.LoginClean | blog/forms.py:132-157 | If a field is missing or holds a null character, nothing is checked. A username that authenticates wins. Otherwise the single user whose e-mail matches is tried. A login succeeds only for an active user that authentication returned. "Inactive" is given exactly for an inactive such user. "Invalid" is given iff nothing authenticates. Two or more e-mail matches raise the uncaught lookup error. |
| Views.ViewedKeyInjective | blog/views.py:17 | Different post ids have different session flags. |
| Views.FindBySlug | blog/views.py:15 | Finds a row holding the slug, or reports that none does. |
| Views.BlogDetail | blog/views.py:13-23 | An unknown slug is not found. For a post whose flag is unset, the view count goes up by exactly one and the session gains exactly that post's flag, set. For a post whose flag is set, table and session are unchanged. Only the view count of the shown row changes, and the table stays well formed. |
| Views.VisitLeavesOtherPostsAlone | blog/views.py:17-21 | Showing one post changes neither another post's row nor its flag. |
| Views.RepeatVisitCountsOnce | blog/views.py:18-21 | A second visit in the same session changes nothing. |
| Views.TwoSessionsCountTwice | blog/views.py:17-21 | One visit from each of two fresh sessions raises the count by exactly two. |

## Left out

- `Category`, `Tag` and `Profile` hold no logic beyond field declarations. Their columns are not modelled.
- `PostForm`, `CommentForm`, `index`, `blog_list`, and the create, update and delete views are request and template plumbing. So are `urls.py` and `admin.py`. None of them is modelled.
- `Comment`, likes and bookmarks do not exist in the model definitions shown, so they are not modelled.
- Forms: line 2 of blog/forms.py imports `Comment`, which blog/models.py does not define, so as written importing the forms module fails. The model assumes a models module that defines it.
- Timestamps (`auto_now`), image and file uploads, the rich-text widget and rendering are not modelled.
- `slugify`, `authenticate`, the e-mail syntax check and database key assignment are parameters, as listed above.
- Forms.CharFieldClean: a value failing several field checks is recorded with the first failing check only. The framework lists the message of every failing validator.
- Forms.CharFieldClean: the values given to the forms are taken as already stripped of surrounding whitespace by the framework. Stripping itself is not modelled, and an empty value stands for a missing one.
- Forms.CleanPassword: `\d` is modelled as the ASCII digits 0-9. Python's Unicode-aware `\d` also accepts other decimal digits.
- Text.SameIgnoringCaseIff: `__iexact` is modelled as ASCII case folding. How non-ASCII letters compare depends on the database.
- Forms.LoginClean: lines 139 and 145 of blog/forms.py pass `self.request`, which the form never sets. `clean` therefore needs the login view to have assigned it, or it raises `AttributeError`. The model takes it as assigned; the login view is not part of this model.
- Forms.CleanProfileUsername: lines 183 and 191 of blog/forms.py read `self.initial['user_id']`. The model takes the current user's id as the `currentId` parameter, so it assumes the view supplied it. Without it, the hooks raise `KeyError`.
- Forms.LoginClean: with the framework's default authentication backend, `authenticate` never returns an inactive user, so the "inactive" branch can only occur under other backends. The model keeps the branch and leaves the backend abstract.
- ReadTime.ReadMinutes: Python computes `word_count / 200` in floating point. Integer half-to-even rounding matches it for every word count below 2^52, where the quotient and its halfway points are exact.
- Models.Save: the `update_fields` argument only affects the write. It is modelled where it is used, in `Views.BlogDetail`, where only the view count is written.
- Models.Write: the unique slug index is the only database constraint modelled. The foreign keys `author` (line 19 of blog/models.py) and `category` (line 23) are not checked against their tables, and neither the title's width of 200 characters (line 20) nor the slug column's default width of 50 is enforced. A database refuses a dangling key with an integrity error, and PostgreSQL refuses an over-long title or slug with a data error (SQLite stores it).
- Models.SaveAndWrite: "a first save is stored" holds only under the constraints the model checks; it rests on the same omissions as `Models.Write`.
- Concurrent saves are not modelled. Two simultaneous first saves of the same title can both pick the same slug; the unique index then refuses one of them (`Models.Write` returns `IntegrityError`).
- Views.BlogDetail: `views` is an `IntegerField` (line 28 of blog/models.py), which is 32 bits on PostgreSQL and MySQL. The model's count is unbounded, so it does not model the database error on overflow past 2^31 - 1.
- Session values other than the booleans this view stores are not modelled.

=== FILE: forms.dfy ===
/** The registration, profile-update and login forms. Each field is first
    cleaned by the form framework (required, length limits, e-mail syntax),
    then by the form's own `clean_<field>` hook if the framework accepted
    it, and finally the whole form is checked by `clean`, which only sees
    the fields that passed. The user table is a sequence of user records;
    the database's case-insensitive `__iexact` lookup is `SameIgnoringCase`. */
module Forms {
  import opened Optional
  import opened Text
  import opened Patterns

  datatype Field = FirstName | LastName | Username | Email | Password | ConfirmPassword

  /** One constructor per distinct error the forms can report. The
      registration form says a username is "already taken", the profile form
      that it "already exists". */
  datatype FormError =
    | Required(field: Field)
    | TooLong(limit: nat)
    | TooShort(limit: nat)
    | InvalidEmail
    | NotLetters(field: Field)
    | UsernameTaken
    | UsernameExists
    | UsernameCharacters
    | EmailRegistered
    | PasswordTooWeak
    | PasswordMismatch
    | NullCharacters

  /** A field's value after cleaning, or the error that stopped it. */
  datatype Cleaned = Valid(value: string) | Invalid(error: FormError)

  /** Errors by field, as the form collects them. */
  type Errors = map<Field, FormError>

  datatype User = User(id: nat, username: string, email: string, isActive: bool)

  type Users = seq<User>

  const NameMaxLength: nat := 30
  const UsernameMaxLength: nat := 30
  const PasswordMinLength: nat := 8

  // ---------------------------------------------------------------------
  // Framework field cleaning
  // ---------------------------------------------------------------------

  /** The framework's text fields refuse any value holding a null character. */
  predicate NoNullCharacters(s: string) {
    forall i :: 0 <= i < |s| ==> s[i] != '\0'
  }

  /** A required text field without length limits accepts the value. */
  predicate Filled(s: string) {
    s != "" && NoNullCharacters(s)
  }

  /** The framework's checks on a username field (`max_length=30`). */
  predicate UsernameFieldAccepts(s: string) {
    Filled(s) && |s| <= UsernameMaxLength
  }

  /** The framework's checks on an e-mail field. */
  predicate EmailFieldAccepts(s: string, isEmail: string -> bool) {
    Filled(s) && isEmail(s)
  }

  /** A required text field: an empty (already stripped) value is missing;
      otherwise the declared length limits apply, and then the check for
      null characters every text field carries. A value failing several
      checks is recorded with the first of them. */
  function CharFieldClean(field: Field, value: string, maxLength: Option<nat>, minLength: Option<nat>): (r: Cleaned)
    ensures r.Valid? <==>
              && value != ""
              && (maxLength.Some? ==> |value| <= maxLength.value)
              && (minLength.Some? ==> |value| >= minLength.value)
              && NoNullCharacters(value)
    ensures r.Valid? ==> r.value == value
    ensures value == "" ==> r == Invalid(Required(field))
  {
    if value == "" then Invalid(Required(field))
    else if maxLength.Some? && |value| > maxLength.value then Invalid(TooLong(maxLength.value))
    else if minLength.Some? && |value| < minLength.value then Invalid(TooShort(minLength.value))
    else if !NoNullCharacters(value) then Invalid(NullCharacters)
    else Valid(value)
  }

  /** A required e-mail field: the framework's address syntax check is the
      parameter `isEmail`; the null-character check follows it. */
  function EmailFieldClean(value: string, isEmail: string -> bool): (r: Cleaned)
    ensures r.Valid? <==> EmailFieldAccepts(value, isEmail)
    ensures r.Valid? ==> r.value == value
    ensures value == "" ==> r == Invalid(Required(Email))
  {
    if value == "" then Invalid(Required(Email))
    else if !isEmail(value) then Invalid(InvalidEmail)
    else if !NoNullCharacters(value) then Invalid(NullCharacters)
    else Valid(value)
  }

  /** Run a `clean_<field>` hook only when the framework accepted the field. */
  function AndThen(c: Cleaned, hook: string -> Cleaned): Cleaned {
    if c.Invalid? then c else hook(c.value)
  }

  /** Add the field's error, if it has one. */
  function Record(errors: Errors, field: Field, c: Cleaned): (r: Errors)
    ensures forall g :: g in r <==> g in errors || (g == field && c.Invalid?)
    ensures forall g :: g in r ==> r[g] == (if g == field && c.Invalid? then c.error else errors[g])
  {
    if c.Invalid? then errors[field := c.error] else errors
  }

  /** The errors of the four fields both the registration and profile
      forms have: names, username and e-mail address. */
  function IdentityErrors(first: Cleaned, last: Cleaned, user: Cleaned, email: Cleaned): (errors: Errors)
    ensures FirstName in errors <==> first.Invalid?
    ensures LastName in errors <==> last.Invalid?
    ensures Username in errors <==> user.Invalid?
    ensures Email in errors <==> email.Invalid?
    ensures Password !in errors && ConfirmPassword !in errors
    ensures user.Invalid? ==> errors[Username] == user.error
    ensures email.Invalid? ==> errors[Email] == email.error
    ensures errors == map[] <==> first.Valid? && last.Valid? && user.Valid? && email.Valid?
  {
    var e1 := Record(map[], FirstName, first);
    var e2 := Record(e1, LastName, last);
    var e3 := Record(e2, Username, user);
    var e4 := Record(e3, Email, email);
    assert FirstName in e4 <==> first.Invalid?;
    e4
  }

  /** The errors of the registration form's six fields. */
  function FieldErrors(first: Cleaned, last: Cleaned, user: Cleaned, email: Cleaned,
                       password: Cleaned, confirm: Cleaned): (errors: Errors)
    ensures FirstName in errors <==> first.Invalid?
    ensures LastName in errors <==> last.Invalid?
    ensures Username in errors <==> user.Invalid?
    ensures Email in errors <==> email.Invalid?
    ensures Password in errors <==> password.Invalid?
    ensures ConfirmPassword in errors <==> confirm.Invalid?
    ensures user.Invalid? ==> errors[Username] == user.error
    ensures email.Invalid? ==> errors[Email] == email.error
    ensures confirm.Invalid? ==> errors[ConfirmPassword] == confirm.error
    ensures errors == map[] <==>
              first.Valid? && last.Valid? && user.Valid? && email.Valid? && password.Valid? && confirm.Valid?
  {
    var e4 := IdentityErrors(first, last, user, email);
    var e5 := Record(e4, Password, password);
    var e6 := Record(e5, ConfirmPassword, confirm);
    assert FirstName in e6 <==> first.Invalid?;
    e6
  }

  /** `cleaned_data.get(field)`: present only when the field passed. */
  function Present(c: Cleaned): Option<string> {
    if c.Valid? then Some(c.value) else None
  }

  // ---------------------------------------------------------------------
  // Uniqueness against the user table
  // ---------------------------------------------------------------------

  /** Some user other than the one with id `except` has this username,
      ignoring case. */
  predicate UsernameInUse(users: Users, name: string, except: Option<nat>) {
    exists u :: u in users && Some(u.id) != except && SameIgnoringCase(u.username, name)
  }

  /** Some user other than the one with id `except` has this e-mail address,
      ignoring case. */
  predicate EmailInUse(users: Users, email: string, except: Option<nat>) {
    exists u :: u in users && Some(u.id) != except && SameIgnoringCase(u.email, email)
  }

  // ---------------------------------------------------------------------
  // The `clean_<field>` hooks
  // ---------------------------------------------------------------------

  /** `clean_first_name` / `clean_last_name`: letters A-Z and a-z only, at
      least one. */
  function CleanName(field: Field, value: string): (r: Cleaned)
    ensures r.Valid? <==> |value| > 0 && forall i :: 0 <= i < |value| ==> IsAsciiLetter(value[i])
    ensures r.Valid? ==> r.value == value
    ensures r.Invalid? ==> r.error == NotLetters(field)
  {
    if FullMatch(Letters, value) then Valid(value) else Invalid(NotLetters(field))
  }

  /** Registration `clean_username`: a username already in use is reported
      as taken whatever its characters; otherwise it must be letters, digits
      and underscores. */
  function CleanUsername(value: string, users: Users): (r: Cleaned)
    ensures UsernameInUse(users, value, None) ==> r == Invalid(UsernameTaken)
    ensures !UsernameInUse(users, value, None) ==>
              (r.Valid? <==> |value| > 0 && forall i :: 0 <= i < |value| ==> InClass(WordChars, value[i]))
    ensures !UsernameInUse(users, value, None) && r.Invalid? ==> r.error == UsernameCharacters
    ensures r.Valid? ==> r.value == value
  {
    if UsernameInUse(users, value, None) then Invalid(UsernameTaken)
    else if !FullMatch(WordChars, value) then Invalid(UsernameCharacters)
    else Valid(value)
  }

  /** Registration `clean_email`: refused exactly when some user already has
      the address, ignoring case. */
  function CleanEmail(value: string, users: Users): (r: Cleaned)
    ensures r.Valid? <==> !EmailInUse(users, value, None)
    ensures r.Valid? ==> r.value == value
    ensures r.Invalid? ==> r.error == EmailRegistered
  {
    if EmailInUse(users, value, None) then Invalid(EmailRegistered) else Valid(value)
  }

  /** `clean_password`: at least one ASCII letter and at least one digit. */
  function CleanPassword(value: string): (r: Cleaned)
    ensures r.Valid? <==>
              && (exists i :: 0 <= i < |value| && IsAsciiLetter(value[i]))
              && (exists i :: 0 <= i < |value| && IsAsciiDigit(value[i]))
    ensures r.Valid? ==> r.value == value
    ensures r.Invalid? ==> r.error == PasswordTooWeak
  {
    if !Search(Letters, value) || !Search(Digits, value) then Invalid(PasswordTooWeak) else Valid(value)
  }

  /** The registration form's `clean`: the mismatch is reported only when
      both passwords are present, non-empty and different. */
  function PasswordsMismatch(password: Option<string>, confirm: Option<string>): (b: bool)
    ensures b <==> password.Some? && confirm.Some? && password.value != "" && confirm.value != ""
                   && password.value != confirm.value
  {
    match (password, confirm)
    case (Some(p), Some(c)) => p != "" && c != "" && p != c
    case _ => false
  }

  // ---------------------------------------------------------------------
  // Registration
  // ---------------------------------------------------------------------

  /** The submitted registration fields, stripped of surrounding whitespace
      by the framework; an empty string is a missing value. */
  datatype Registration = Registration(
    firstName: string,
    lastName: string,
    username: string,
    email: string,
    password: string,
    confirmPassword: string)

  predicate IsName(s: string) {
    0 < |s| <= NameMaxLength && forall i :: 0 <= i < |s| ==> IsAsciiLetter(s[i])
  }

  /** A password the password field and `clean_password` both accept. */
  predicate IsStrongPassword(s: string) {
    && |s| >= PasswordMinLength
    && NoNullCharacters(s)
    && (exists i :: 0 <= i < |s| && IsAsciiLetter(s[i]))
    && (exists i :: 0 <= i < |s| && IsAsciiDigit(s[i]))
  }

  /** What a successful registration requires, stated field by field. */
  predicate RegistrationAcceptable(form: Registration, users: Users, isEmail: string -> bool) {
    && IsName(form.firstName)
    && IsName(form.lastName)
    && UsernameFieldAccepts(form.username)
    && (forall i :: 0 <= i < |form.username| ==> InClass(WordChars, form.username[i]))
    && !UsernameInUse(users, form.username, None)
    && EmailFieldAccepts(form.email, isEmail)
    && !EmailInUse(users, form.email, None)
    && IsStrongPassword(form.password)
    && form.confirmPassword == form.password
  }

  /** A first- or last-name field: the framework's required and length
      checks, then `CleanName`. */
  function NameField(field: Field, value: string): (r: Cleaned)
    ensures r.Valid? <==> IsName(value)
  {
    AndThen(CharFieldClean(field, value, Some(NameMaxLength), None), v => CleanName(field, v))
  }

  function RegisterUsername(form: Registration, users: Users): (r: Cleaned)
    ensures r.Valid? <==>
              && UsernameFieldAccepts(form.username)
              && (forall i :: 0 <= i < |form.username| ==> InClass(WordChars, form.username[i]))
              && !UsernameInUse(users, form.username, None)
    ensures (r.Invalid? && r.error == UsernameTaken) <==>
              UsernameFieldAccepts(form.username) && UsernameInUse(users, form.username, None)
  {
    AndThen(CharFieldClean(Username, form.username, Some(UsernameMaxLength), None), v => CleanUsername(v, users))
  }

  function RegisterEmail(form: Registration, users: Users, isEmail: string -> bool): (r: Cleaned)
    ensures r.Valid? <==> EmailFieldAccepts(form.email, isEmail) && !EmailInUse(users, form.email, None)
    ensures (r.Invalid? && r.error == EmailRegistered) <==>
              EmailFieldAccepts(form.email, isEmail) && EmailInUse(users, form.email, None)
  {
    AndThen(EmailFieldClean(form.email, isEmail), v => CleanEmail(v, users))
  }

  function RegisterPassword(form: Registration): (r: Cleaned)
    ensures r.Valid? <==> IsStrongPassword(form.password)
    ensures r.Valid? ==> r.value == form.password
  {
    AndThen(CharFieldClean(Password, form.password, None, Some(PasswordMinLength)), CleanPassword)
  }

  function RegisterConfirm(form: Registration): (r: Cleaned)
    ensures r.Valid? <==> Filled(form.confirmPassword)
    ensures r.Valid? ==> r.value == form.confirmPassword
    ensures form.confirmPassword == "" ==> r == Invalid(Required(ConfirmPassword))
    ensures form.confirmPassword != "" && r.Invalid? ==> r.error == NullCharacters
  {
    CharFieldClean(ConfirmPassword, form.confirmPassword, None, None)
  }

  /** `RegisterForm` validation: every field in declaration order, then the
      cross-field `clean`. */
  function ValidateRegistration(form: Registration, users: Users, isEmail: string -> bool): (errors: Errors)
    ensures errors == map[] <==> RegistrationAcceptable(form, users, isEmail)
    ensures FirstName !in errors <==> IsName(form.firstName)
    ensures LastName !in errors <==> IsName(form.lastName)
    ensures Username !in errors <==>
              && UsernameFieldAccepts(form.username)
              && (forall i :: 0 <= i < |form.username| ==> InClass(WordChars, form.username[i]))
              && !UsernameInUse(users, form.username, None)
    ensures (Username in errors && errors[Username] == UsernameTaken) <==>
              UsernameFieldAccepts(form.username) && UsernameInUse(users, form.username, None)
    ensures Email !in errors <==> EmailFieldAccepts(form.email, isEmail) && !EmailInUse(users, form.email, None)
    ensures (Email in errors && errors[Email] == EmailRegistered) <==>
              EmailFieldAccepts(form.email, isEmail) && EmailInUse(users, form.email, None)
    ensures Password !in errors <==> IsStrongPassword(form.password)
    ensures ConfirmPassword !in errors <==>
              Filled(form.confirmPassword) && (IsStrongPassword(form.password) ==> form.confirmPassword == form.password)
    ensures (ConfirmPassword in errors && errors[ConfirmPassword] == PasswordMismatch) <==>
              IsStrongPassword(form.password) && Filled(form.confirmPassword)
              && form.confirmPassword != form.password
  {
    var password := RegisterPassword(form);
    var confirm := RegisterConfirm(form);
    var fieldErrors := FieldErrors(NameField(FirstName, form.firstName), NameField(LastName, form.lastName),
                                   RegisterUsername(form, users), RegisterEmail(form, users, isEmail),
                                   password, confirm);
    var mismatch := PasswordsMismatch(Present(password), Present(confirm));
    assert mismatch <==> password.Valid? && confirm.Valid? && form.password != form.confirmPassword;
    AddMismatch(fieldErrors, mismatch)
  }

  /** The cross-field `clean` adding its error to the confirmation field. */
  function AddMismatch(errors: Errors, mismatch: bool): (r: Errors)
    ensures forall g :: g != ConfirmPassword ==> (g in r <==> g in errors)
    ensures forall g :: g != ConfirmPassword && g in r ==> r[g] == errors[g]
    ensures mismatch ==> ConfirmPassword in r && r[ConfirmPassword] == PasswordMismatch
    ensures !mismatch ==> r == errors
  {
    if mismatch then errors[ConfirmPassword := PasswordMismatch] else errors
  }

  // ---------------------------------------------------------------------
  // Profile update
  // ---------------------------------------------------------------------

  datatype ProfileUpdate = ProfileUpdate(firstName: string, lastName: string, username: string, email: string)

  /** Profile `clean_username`: refused exactly when another user (not the
      one being edited) has the username, ignoring case. There is no
      character check on this form. */
  function CleanProfileUsername(value: string, users: Users, currentId: nat): (r: Cleaned)
    ensures r.Valid? <==> !UsernameInUse(users, value, Some(currentId))
    ensures r.Valid? ==> r.value == value
    ensures r.Invalid? ==> r.error == UsernameExists
  {
    if UsernameInUse(users, value, Some(currentId)) then Invalid(UsernameExists) else Valid(value)
  }

  /** Profile `clean_email`: refused exactly when another user has the
      address, ignoring case. */
  function CleanProfileEmail(value: string, users: Users, currentId: nat): (r: Cleaned)
    ensures r.Valid? <==> !EmailInUse(users, value, Some(currentId))
    ensures r.Valid? ==> r.value == value
    ensures r.Invalid? ==> r.error == EmailRegistered
  {
    if EmailInUse(users, value, Some(currentId)) then Invalid(EmailRegistered) else Valid(value)
  }

  predicate ProfileAcceptable(form: ProfileUpdate, users: Users, currentId: nat, isEmail: string -> bool) {
    && IsName(form.firstName)
    && IsName(form.lastName)
    && UsernameFieldAccepts(form.username)
    && !UsernameInUse(users, form.username, Some(currentId))
    && EmailFieldAccepts(form.email, isEmail)
    && !EmailInUse(users, form.email, Some(currentId))
  }

  function ProfileUsername(form: ProfileUpdate, users: Users, currentId: nat): (r: Cleaned)
    ensures r.Valid? <==>
              UsernameFieldAccepts(form.username) && !UsernameInUse(users, form.username, Some(currentId))
    ensures (r.Invalid? && r.error == UsernameExists) <==>
              UsernameFieldAccepts(form.username) && UsernameInUse(users, form.username, Some(currentId))
  {
    AndThen(CharFieldClean(Username, form.username, Some(UsernameMaxLength), None),
            v => CleanProfileUsername(v, users, currentId))
  }

  function ProfileEmail(form: ProfileUpdate, users: Users, currentId: nat, isEmail: string -> bool): (r: Cleaned)
    ensures r.Valid? <==> EmailFieldAccepts(form.email, isEmail) && !EmailInUse(users, form.email, Some(currentId))
    ensures (r.Invalid? && r.error == EmailRegistered) <==>
              EmailFieldAccepts(form.email, isEmail) && EmailInUse(users, form.email, Some(currentId))
  {
    AndThen(EmailFieldClean(form.email, isEmail), v => CleanProfileEmail(v, users, currentId))
  }

  /** `ProfileUpdateForm` validation for the user with id `currentId`. */
  function ValidateProfileUpdate(form: ProfileUpdate, users: Users, currentId: nat, isEmail: string -> bool): (errors: Errors)
    ensures errors == map[] <==> ProfileAcceptable(form, users, currentId, isEmail)
    ensures FirstName !in errors <==> IsName(form.firstName)
    ensures LastName !in errors <==> IsName(form.lastName)
    ensures Username !in errors <==>
              UsernameFieldAccepts(form.username) && !UsernameInUse(users, form.username, Some(currentId))
    ensures (Username in errors && errors[Username] == UsernameExists) <==>
              UsernameFieldAccepts(form.username) && UsernameInUse(users, form.username, Some(currentId))
    ensures Email !in errors <==>
              EmailFieldAccepts(form.email, isEmail) && !EmailInUse(users, form.email, Some(currentId))
    ensures (Email in errors && errors[Email] == EmailRegistered) <==>
              EmailFieldAccepts(form.email, isEmail) && EmailInUse(users, form.email, Some(currentId))
    ensures Password !in errors && ConfirmPassword !in errors
  {
    IdentityErrors(NameField(FirstName, form.firstName), NameField(LastName, form.lastName),
                   ProfileUsername(form, users, currentId), ProfileEmail(form, users, currentId, isEmail))
  }

  /** No two users share a username or an e-mail address ignoring case, as
      the registration and profile forms between them maintain. */
  predicate DistinctIgnoringCase(users: Users) {
    forall a, b :: a in users && b in users && (SameIgnoringCase(a.username, b.username) || SameIgnoringCase(a.email, b.email))
                   ==> a.id == b.id
  }

  /** A user who submits their own username and e-mail address, in any
      case, never gets a uniqueness error. */
  lemma KeepingOwnIdentityIsAccepted(form: ProfileUpdate, users: Users, me: User, isEmail: string -> bool)
    requires DistinctIgnoringCase(users)
    requires me in users
    requires SameIgnoringCase(me.username, form.username)
    requires SameIgnoringCase(me.email, form.email)
    ensures var errors := ValidateProfileUpdate(form, users, me.id, isEmail);
            && (Username in errors ==> errors[Username] != UsernameExists)
            && (Email in errors ==> errors[Email] != EmailRegistered)
  {
    assert !UsernameInUse(users, form.username, Some(me.id));
    assert !EmailInUse(users, form.email, Some(me.id));
  }

  /** The profile form lacks the registration form's character check: with
      no other users, `a-b` is a username profile update keeps but
      registration refuses. */
  lemma ProfileSkipsCharacterCheck()
    ensures CleanProfileUsername("a-b", [], 0).Valid?
    ensures CleanUsername("a-b", []) == Invalid(UsernameCharacters)
  {
    assert !InClass(WordChars, "a-b"[1]);
  }

  // ---------------------------------------------------------------------
  // Login
  // ---------------------------------------------------------------------

  /** The outcome of `LoginForm.clean`. `NotChecked` when either field
      failed its own checks, being missing or holding a null character (the
      framework reports those); `MultipleUsersForEmail` is the
      lookup exception that the form does not catch. */
  datatype LoginOutcome =
    | NotChecked
    | LoggedIn(user: User)
    | InvalidCredentials
    | Inactive(user: User)
    | MultipleUsersForEmail

  /** The row at `i` has the address `value`, ignoring case. */
  predicate EmailAt(users: Users, i: int, value: string)
    requires 0 <= i < |users|
  {
    SameIgnoringCase(users[i].email, value)
  }

  /** The rows whose address equals `value` ignoring case, in table order:
      what `User.objects.filter(email__iexact=value)` retrieves, one entry
      per matching row. */
  function UsersWithEmail(users: Users, value: string): (r: Users)
    ensures forall u :: u in r <==> u in users && SameIgnoringCase(u.email, value)
    ensures |r| <= |users|
    ensures |r| == 0 <==> forall i :: 0 <= i < |users| ==> !EmailAt(users, i, value)
    ensures |r| >= 2 <==> exists i, j :: 0 <= i < j < |users| && EmailAt(users, i, value) && EmailAt(users, j, value)
  {
    if |users| == 0 then []
    else
      var rest := UsersWithEmail(users[1..], value);
      MatchCountStep(users, value, rest);
      if SameIgnoringCase(users[0].email, value) then [users[0]] + rest else rest
  }

  /** Counting matches one row at a time: how many of the rows after the
      first match, and whether the first does, settle whether none or at
      least two of all the rows match. */
  lemma MatchCountStep(users: Users, value: string, rest: Users)
    requires |users| > 0
    requires |rest| == 0 <==> forall i :: 0 <= i < |users| - 1 ==> !EmailAt(users[1..], i, value)
    requires |rest| >= 2 <==>
               exists i, j :: 0 <= i < j < |users| - 1 && EmailAt(users[1..], i, value) && EmailAt(users[1..], j, value)
    ensures var r := if EmailAt(users, 0, value) then [users[0]] + rest else rest;
            && (|r| == 0 <==> forall i :: 0 <= i < |users| ==> !EmailAt(users, i, value))
            && (|r| >= 2 <==> exists i, j :: 0 <= i < j < |users| && EmailAt(users, i, value) && EmailAt(users, j, value))
  {
    var tail := users[1..];
    assert forall i :: 0 <= i < |tail| ==> (EmailAt(tail, i, value) <==> EmailAt(users, i + 1, value));
    if exists i, j :: 0 <= i < j < |users| && EmailAt(users, i, value) && EmailAt(users, j, value) {
      var i, j :| 0 <= i < j < |users| && EmailAt(users, i, value) && EmailAt(users, j, value);
      assert EmailAt(tail, j - 1, value);
      if i > 0 {
        assert EmailAt(tail, i - 1, value);
      }
    }
    if |rest| >= 2 {
      var i, j :| 0 <= i < j < |tail| && EmailAt(tail, i, value) && EmailAt(tail, j, value);
      assert EmailAt(users, i + 1, value) && EmailAt(users, j + 1, value);
    }
    if EmailAt(users, 0, value) && |rest| >= 1 {
      var j :| 0 <= j < |tail| && EmailAt(tail, j, value);
      assert EmailAt(users, j + 1, value);
    }
    if exists i :: 0 <= i < |users| && EmailAt(users, i, value) {
      var i :| 0 <= i < |users| && EmailAt(users, i, value);
      if i > 0 {
        assert EmailAt(tail, i - 1, value);
      }
    }
  }

  /** The user `authenticate` returns for the identifier: the identifier as
      a username first, then the username of the single user whose e-mail
      address matches it. */
  predicate AuthenticatesAs(identifier: string, password: string, users: Users,
                            authenticate: (string, string) -> Option<User>, u: User) {
    || authenticate(identifier, password) == Some(u)
    || (&& authenticate(identifier, password).None?
        && |UsersWithEmail(users, identifier)| == 1
        && authenticate(UsersWithEmail(users, identifier)[0].username, password) == Some(u))
  }

  /** `LoginForm.clean`. `authenticate` stands for the authentication
      backend. */
  function LoginClean(identifier: string, password: string, users: Users,
                      authenticate: (string, string) -> Option<User>): (r: LoginOutcome)
    ensures r.NotChecked? <==> !Filled(identifier) || !Filled(password)
    ensures r.LoggedIn? ==> r.user.isActive && AuthenticatesAs(identifier, password, users, authenticate, r.user)
    ensures r.Inactive? ==> !r.user.isActive && AuthenticatesAs(identifier, password, users, authenticate, r.user)
    ensures Filled(identifier) && Filled(password) && authenticate(identifier, password).Some? ==>
              r == (var u := authenticate(identifier, password).value; if u.isActive then LoggedIn(u) else Inactive(u))
    ensures r.InvalidCredentials? <==>
              && Filled(identifier) && Filled(password)
              && |UsersWithEmail(users, identifier)| <= 1
              && forall u :: !AuthenticatesAs(identifier, password, users, authenticate, u)
    ensures r.MultipleUsersForEmail? <==>
              && Filled(identifier) && Filled(password)
              && authenticate(identifier, password).None?
              && |UsersWithEmail(users, identifier)| > 1
  {
    if !Filled(identifier) || !Filled(password) then NotChecked
    else
      var byName := authenticate(identifier, password);
      var matched := UsersWithEmail(users, identifier);
      if byName.None? && |matched| > 1 then MultipleUsersForEmail
      else
        var user :=
          if byName.Some? then byName
          else if |matched| == 1 then authenticate(matched[0].username, password)
          else None;
        match user
        case None => InvalidCredentials
        case Some(u) =>
          assert AuthenticatesAs(identifier, password, users, authenticate, u);
          if u.isActive then LoggedIn(u) else Inactive(u)
  }

  /** No two rows share an id, as the primary key guarantees. */
  predicate DistinctIds(users: Users) {
    forall i, j :: 0 <= i < j < |users| ==> users[i].id != users[j].id
  }

  /** With distinct ids, the e-mail lookup finds two or more rows exactly
      when two different users have the address, ignoring case. */
  lemma MultipleMatchesAreDistinctUsers(users: Users, value: string)
    requires DistinctIds(users)
    ensures |UsersWithEmail(users, value)| >= 2 <==>
              exists u, v :: u in users && v in users && u.id != v.id
                             && SameIgnoringCase(u.email, value) && SameIgnoringCase(v.email, value)
  {
    if |UsersWithEmail(users, value)| >= 2 {
      var i, j :| 0 <= i < j < |users| && EmailAt(users, i, value) && EmailAt(users, j, value);
      assert users[i] in users && users[j] in users && users[i].id != users[j].id;
    }
    if exists u, v :: u in users && v in users && u.id != v.id
                      && SameIgnoringCase(u.email, value) && SameIgnoringCase(v.email, value) {
      var u, v :| u in users && v in users && u.id != v.id
                  && SameIgnoringCase(u.email, value) && SameIgnoringCase(v.email, value);
      var i :| 0 <= i < |users| && users[i] == u;
      var j :| 0 <= j < |users| && users[j] == v;
      if i < j {
        assert EmailAt(users, i, value) && EmailAt(users, j, value);
      } else {
        assert EmailAt(users, j, value) && EmailAt(users, i, value);
      }
    }
  }
}

=== FILE: models.dfy ===
/** The `Post` record and what happens when one is saved: the slug is derived
    once, the reading time on every save with content, and the row is then
    written to the posts table, whose slug column is unique. */
module Models {
  import opened Optional
  import Slugs
  import ReadTime

  datatype Status = Draft | Published

  /** One post. `pk` is None until the post has been stored; an empty `slug`
      means no slug has been assigned; `readTime` is a nullable column.
      Authors, categories and tags are referred to by key. */
  datatype Post = Post(
    pk: Option<nat>,
    author: nat,
    title: string,
    slug: string,
    content: string,
    category: Option<nat>,
    tags: set<nat>,
    status: Status,
    views: int,
    readTime: Option<int>)

  /** The posts table, one row per stored post. */
  type Table = seq<Post>

  /** What the database guarantees of the table: every row has a primary
      key, primary keys are distinct, and slugs are distinct (the slug column
      is declared unique). */
  predicate WellFormed(table: Table) {
    && (forall i :: 0 <= i < |table| ==> table[i].pk.Some?)
    && (forall i, j :: 0 <= i < j < |table| ==> table[i].pk != table[j].pk)
    && (forall i, j :: 0 <= i < j < |table| ==> table[i].slug != table[j].slug)
  }

  /** `pk` belongs to no row. */
  predicate Unused(table: Table, pk: nat) {
    forall i :: 0 <= i < |table| ==> table[i].pk != Some(pk)
  }

  /** The slugs of every row except the one whose primary key is `self`.
      Excluding `pk=None` excludes nothing, since stored rows all have a key. */
  function OtherSlugs(table: Table, self: Option<nat>): set<string> {
    set i | 0 <= i < |table| && table[i].pk != self :: table[i].slug
  }

  /** The position of the row with primary key `pk`, if any. */
  function RowOf(table: Table, pk: nat): (r: Option<nat>)
    ensures r.Some? ==> r.value < |table| && table[r.value].pk == Some(pk)
    ensures r.None? ==> Unused(table, pk)
  {
    if |table| == 0 then None
    else if table[|table| - 1].pk == Some(pk) then Some(|table| - 1)
    else RowOf(table[..|table| - 1], pk)
  }

  /** `Post.save` up to the point where it hands the record to the database.
      `slugify` stands for the framework's slug normaliser; `table` is the
      posts table as it stands. Only the slug (and only when empty) and the
      reading time (and only when there is content) change. */
  method Save(p: Post, slugify: string -> string, table: Table) returns (q: Post)
    ensures p.slug != "" ==> q.slug == p.slug
    ensures p.slug == "" ==> q.slug !in OtherSlugs(table, p.pk)
    ensures p.slug == "" ==>
              exists k: nat :: Slugs.IsLeastFree(slugify(p.title), OtherSlugs(table, p.pk), k)
                               && q.slug == Slugs.Candidate(slugify(p.title), k)
    ensures p.content != "" ==> q.readTime == Some(ReadTime.ContentMinutes(p.content))
    ensures p.content != "" ==> q.readTime.Some? && q.readTime.value >= 1
    ensures p.content == "" ==> q.readTime == p.readTime
    ensures q == p.(slug := q.slug, readTime := q.readTime)
  {
    q := p;
    if p.slug == "" {
      var slug := Slugs.UniqueSlug(slugify(p.title), OtherSlugs(table, p.pk));
      q := q.(slug := slug);
    }
    if p.content != "" {
      q := q.(readTime := Some(ReadTime.ContentMinutes(p.content)));
    }
  }

  /** The outcome of writing a post to the table. */
  datatype StoreResult = Stored(table: Table, pk: nat) | IntegrityError

  /** The database write at the end of `Post.save`: update the row with the
      post's key when one exists, insert a new row otherwise (under the
      post's own key, or `freshPk` chosen by the database when it has none).
      A slug already held by another row violates the unique index. */
  function Write(table: Table, q: Post, freshPk: nat): (r: StoreResult)
    requires WellFormed(table)
    requires Unused(table, freshPk)
    ensures r.IntegrityError? <==> q.slug in OtherSlugs(table, if q.pk.Some? then q.pk else Some(freshPk))
    ensures r.Stored? ==> WellFormed(r.table)
    ensures r.Stored? ==> r.pk == (if q.pk.Some? then q.pk.value else freshPk)
    ensures r.Stored? ==> exists i :: 0 <= i < |r.table| && r.table[i] == q.(pk := Some(r.pk))
    ensures r.Stored? ==>
              forall x :: x in r.table <==> x == q.(pk := Some(r.pk)) || (x in table && x.pk != Some(r.pk))
    ensures r.Stored? ==> |r.table| == |table| + (if Unused(table, r.pk) then 1 else 0)
    ensures r.Stored? && !Unused(table, r.pk) ==>
              forall i :: 0 <= i < |table| ==> r.table[i] == (if table[i].pk == Some(r.pk) then q.(pk := Some(r.pk)) else table[i])
    ensures r.Stored? && Unused(table, r.pk) ==> r.table == table + [q.(pk := Some(r.pk))]
  {
    var pk := if q.pk.Some? then q.pk.value else freshPk;
    var row := q.(pk := Some(pk));
    if q.slug in OtherSlugs(table, Some(pk)) then IntegrityError
    else
      match RowOf(table, pk)
      case Some(i) => Stored(UpdateRow(table, i, row), pk)
      case None => Stored(InsertRow(table, row), pk)
  }

  /** An UPDATE: the row at `i` is replaced by one with the same key. */
  function UpdateRow(table: Table, i: nat, row: Post): (t: Table)
    requires WellFormed(table) && i < |table|
    requires table[i].pk == row.pk
    requires row.slug !in OtherSlugs(table, row.pk)
    ensures WellFormed(t)
    ensures |t| == |table|
    ensures forall j :: 0 <= j < |table| ==> t[j] == (if table[j].pk == row.pk then row else table[j])
    ensures forall x :: x in t <==> x == row || (x in table && x.pk != row.pk)
  {
    assert forall j :: 0 <= j < |table| && j != i ==> table[j].slug in OtherSlugs(table, row.pk);
    table[i := row]
  }

  /** An INSERT: a row with a key no row has is added at the end. */
  function InsertRow(table: Table, row: Post): (t: Table)
    requires WellFormed(table)
    requires row.pk.Some? && Unused(table, row.pk.value)
    requires row.slug !in OtherSlugs(table, row.pk)
    ensures WellFormed(t)
    ensures |t| == |table| + 1
    ensures forall x :: x in t <==> x == row || (x in table && x.pk != row.pk)
  {
    assert forall j :: 0 <= j < |table| ==> table[j].slug in OtherSlugs(table, row.pk);
    table + [row]
  }

  /** `Post.save` as a whole: derive the fields, then write the row. A post
      saved for the first time (empty slug) never trips the unique index,
      and neither does re-saving a stored post under the slug it already
      has; the table stays well formed. */
  method SaveAndWrite(p: Post, slugify: string -> string, table: Table, freshPk: nat)
    returns (q: Post, r: StoreResult)
    requires WellFormed(table)
    requires Unused(table, freshPk)
    ensures q == p.(slug := q.slug, readTime := q.readTime)
    ensures p.slug == "" ==> r.Stored?
    ensures (exists i :: 0 <= i < |table| && table[i].pk == p.pk && table[i].slug == p.slug) ==> r.Stored?
    ensures r.Stored? ==> WellFormed(r.table)
    ensures r.Stored? ==> exists i :: 0 <= i < |r.table| && r.table[i] == q.(pk := Some(r.pk))
  {
    q := Save(p, slugify, table);
    if p.pk.None? {
      assert OtherSlugs(table, Some(freshPk)) == OtherSlugs(table, None);
    }
    r := Write(table, q, freshPk);
  }
}

=== FILE: patterns.dfy ===
/** The regular expressions the registration and profile forms apply, all of
    which are a single character class used either as a whole-string match
    (`re.match(r'^[...]+$', s)`) or as a search for one occurrence
    (`re.search(r'[...]', s)`). */
module Patterns {
  import opened Text

  /** `[A-Za-z]`, `\d` and `[a-zA-Z0-9_]`. */
  datatype CharClass = Letters | Digits | WordChars

  predicate InClass(k: CharClass, c: char) {
    match k
    case Letters => IsAsciiLetter(c)
    case Digits => IsAsciiDigit(c)
    case WordChars => IsAsciiLetter(c) || IsAsciiDigit(c) || c == '_'
  }

  /** `^[...]+$` against a value with no trailing newline: one or more
      characters, every one of them in the class. */
  function FullMatch(k: CharClass, s: string): (b: bool)
    ensures b <==> |s| > 0 && forall i :: 0 <= i < |s| ==> InClass(k, s[i])
    decreases |s|
  {
    if |s| == 0 then false
    else InClass(k, s[0]) && (|s| == 1 || FullMatch(k, s[1..]))
  }

  /** `re.search` for the class: some character of the value is in it. */
  function Search(k: CharClass, s: string): (b: bool)
    ensures b <==> exists i :: 0 <= i < |s| && InClass(k, s[i])
    decreases |s|
  {
    |s| > 0 && (InClass(k, s[0]) || Search(k, s[1..]))
  }
}

=== FILE: readtime.dfy ===
/** The estimated reading time of a post: the number of whitespace-separated
    words divided by a reading speed of 200 words per minute, rounded the way
    Python 3's `round` rounds, and never less than one minute. */
module ReadTime {
  import opened Text

  const WordsPerMinute: nat := 200

  predicate NoSpace(w: string) {
    forall i :: 0 <= i < |w| ==> !IsSpace(w[i])
  }

  predicate AllSpace(s: string) {
    forall i :: 0 <= i < |s| ==> IsSpace(s[i])
  }

  // ---------------------------------------------------------------------
  // Word splitting
  // ---------------------------------------------------------------------

  /** The length of the run of non-whitespace characters at the start of
      `s`: it contains no whitespace and cannot be extended. */
  function WordLength(s: string): (n: nat)
    ensures n <= |s|
    ensures NoSpace(s[..n])
    ensures n < |s| ==> IsSpace(s[n])
    decreases |s|
  {
    if |s| == 0 || IsSpace(s[0]) then 0 else 1 + WordLength(s[1..])
  }

  /** Python's `str.split()` with no separator: the maximal runs of
      non-whitespace characters, in order. */
  function Split(s: string): (words: seq<string>)
    ensures forall i :: 0 <= i < |words| ==> |words[i]| > 0 && NoSpace(words[i])
    ensures |words| == 0 <==> AllSpace(s)
    decreases |s|
  {
    if |s| == 0 then []
    else if IsSpace(s[0]) then Split(s[1..])
    else
      var n := WordLength(s);
      [s[..n]] + Split(s[n..])
  }

  /** A single word splits to itself. */
  lemma SplitWord(w: string)
    requires |w| > 0 && NoSpace(w)
    ensures Split(w) == [w]
  {
    var n := WordLength(w);
    assert n == |w|;
    assert w[..n] == w;
    assert Split(w[n..]) == [];
  }

  lemma {:induction false} WordLengthStopsAtSpace(a: string, c: char, b: string)
    requires IsSpace(c)
    ensures WordLength(a + [c] + b) == WordLength(a)
    decreases |a|
  {
    if |a| > 0 && !IsSpace(a[0]) {
      assert (a + [c] + b)[1..] == a[1..] + [c] + b;
      WordLengthStopsAtSpace(a[1..], c, b);
    }
  }

  /** A whitespace character separates: the words of `a c b` are the words
      of `a` followed by the words of `b`. With `SplitWord` this determines
      `Split` on every string. */
  lemma {:induction false} SplitAtSpace(a: string, c: char, b: string)
    requires IsSpace(c)
    ensures Split(a + [c] + b) == Split(a) + Split(b)
    decreases |a|
  {
    var s := a + [c] + b;
    if |a| == 0 {
      assert s[1..] == b;
    } else if IsSpace(a[0]) {
      assert s[1..] == a[1..] + [c] + b;
      SplitAtSpace(a[1..], c, b);
    } else {
      var n := WordLength(a);
      WordLengthStopsAtSpace(a, c, b);
      assert s[..n] == a[..n];
      assert s[n..] == a[n..] + [c] + b;
      SplitAtSpace(a[n..], c, b);
    }
  }

  // ---------------------------------------------------------------------
  // Rounding
  // ---------------------------------------------------------------------

  /** `r` is the integer nearest to n / d, and when n / d lies exactly
      halfway between two integers it is the even one. */
  predicate IsRoundHalfEven(n: nat, d: nat, r: int)
    requires d > 0
  {
    var gap := if n >= r * d then n - r * d else r * d - n;
    && 2 * gap <= d
    && (2 * gap == d ==> r % 2 == 0)
  }

  /** Python 3's `round(n / d)` computed on integers. */
  function RoundHalfEven(n: nat, d: nat): (r: nat)
    requires d > 0
    ensures IsRoundHalfEven(n, d, r)
  {
    var q := n / d;
    var rem := n % d;
    assert n == q * d + rem;
    assert (q + 1) * d == q * d + d;
    if 2 * rem < d then q
    else if 2 * rem > d then q + 1
    else if q % 2 == 0 then q
    else q + 1
  }

  lemma MultipleBounds(k: int, d: int)
    requires d > 0
    ensures k >= 1 ==> k * d >= d
    ensures k <= -2 ==> k * d <= -2 * d
    ensures k == -1 ==> k * d == 0 - d
  {
    if k >= 1 {
      assert k * d == (k - 1) * d + d;
    } else if k <= -2 {
      assert k * d == (k + 2) * d - 2 * d;
    }
  }

  /** The half-to-even rounding of n / d is the only integer with the
      property: together with the postcondition of `RoundHalfEven` this makes
      `IsRoundHalfEven` and `RoundHalfEven` two descriptions of one value. */
  lemma RoundHalfEvenUnique(n: nat, d: nat, r: int)
    requires d > 0
    requires IsRoundHalfEven(n, d, r)
    ensures r == RoundHalfEven(n, d)
  {
    var q := n / d;
    var k := q - r;
    assert n - r * d == k * d + n % d by {
      assert n == q * d + n % d;
      assert q * d - r * d == k * d;
    }
    MultipleBounds(k, d);
  }

  /** `max(1, round(words / 200))`. */
  function ReadMinutes(words: nat): (m: nat)
    ensures m >= 1
    ensures m == 1 <==> 2 * words < 3 * WordsPerMinute
    ensures 2 * words > WordsPerMinute ==> IsRoundHalfEven(words, WordsPerMinute, m)
  {
    var r := RoundHalfEven(words, WordsPerMinute);
    if r < 1 then 1 else r
  }

  /** The minutes shown for a post body. */
  function ContentMinutes(content: string): (m: nat)
    ensures m >= 1
    ensures AllSpace(content) ==> m == 1
  {
    ReadMinutes(|Split(content)|)
  }

  /** Worked values: exactly 200 words read in one minute, 300 words round
      up to two (1.5 goes to the even neighbour), 500 words round down to two
      (2.5 likewise), 100 words round to zero and are lifted to one. */
  lemma ReadMinutesExamples()
    ensures ReadMinutes(0) == 1
    ensures ReadMinutes(100) == 1
    ensures ReadMinutes(200) == 1
    ensures ReadMinutes(300) == 2
    ensures ReadMinutes(401) == 2
    ensures ReadMinutes(500) == 2
    ensures ReadMinutes(700) == 4
  {
  }
}

=== FILE: slugs.dfy ===
/** Collision-avoiding slug generation for posts: try the base slug derived
    from the title, then `base-1`, `base-2`, ... until one is not held by any
    other post. */
module Slugs {
  import opened Text

  /** The slug tried at step `k`: the base itself first, then the base with
      `-k` appended. */
  function Candidate(base: string, k: nat): string {
    if k == 0 then base else base + "-" + NatToString(k)
  }

  /** The slugs tried before step `k`. */
  function CandidatesBelow(base: string, k: nat): set<string> {
    set j | 0 <= j < k :: Candidate(base, j)
  }

  /** `k` is the first step whose candidate is free: every earlier candidate
      is taken and this one is not. */
  predicate IsLeastFree(base: string, taken: set<string>, k: nat) {
    && Candidate(base, k) !in taken
    && forall j :: 0 <= j < k ==> Candidate(base, j) in taken
  }

  /** Different steps never try the same slug. */
  lemma CandidateInjective(base: string, a: nat, b: nat)
    ensures Candidate(base, a) == Candidate(base, b) ==> a == b
  {
    if a != 0 && b != 0 {
      assert Candidate(base, a)[|base| + 1..] == NatToString(a);
      assert Candidate(base, b)[|base| + 1..] == NatToString(b);
      NatToStringInjective(a, b);
    }
  }

  /** The first `k` steps try `k` different slugs. */
  lemma {:induction false} CandidatesBelowSize(base: string, k: nat)
    ensures |CandidatesBelow(base, k)| == k
  {
    if k == 0 {
      assert CandidatesBelow(base, 0) == {};
    } else {
      CandidatesBelowSize(base, k - 1);
      var last := Candidate(base, k - 1);
      assert CandidatesBelow(base, k) == CandidatesBelow(base, k - 1) + {last};
      forall j | 0 <= j < k - 1
        ensures Candidate(base, j) != last
      {
        CandidateInjective(base, j, k - 1);
      }
    }
  }

  /** If the first `k` candidates are all taken then there are at least `k`
      taken slugs; this is what makes the search loop stop. */
  lemma TakenPrefixBound(base: string, taken: set<string>, k: nat)
    requires forall j :: 0 <= j < k ==> Candidate(base, j) in taken
    ensures k <= |taken|
  {
    var tried := CandidatesBelow(base, k);
    CandidatesBelowSize(base, k);
    assert tried <= taken;
    assert taken == tried + (taken - tried);
  }

  /** There is at most one least free step. */
  lemma LeastFreeUnique(base: string, taken: set<string>, a: nat, b: nat)
    requires IsLeastFree(base, taken, a)
    requires IsLeastFree(base, taken, b)
    ensures a == b
  {
  }

  /** When the first `n` candidates for a base are exactly the slugs in use,
      the next post with that base gets suffix `-n`: repeated saves of posts
      whose titles share a base receive `base`, `base-1`, `base-2`, ... */
  lemma SuccessiveCollisions(base: string, n: nat)
    ensures IsLeastFree(base, CandidatesBelow(base, n), n)
  {
    forall j | 0 <= j < n
      ensures Candidate(base, j) != Candidate(base, n)
    {
      CandidateInjective(base, j, n);
    }
  }

  /** The search loop of `Post.save`: `taken` is the set of slugs held by the
      other posts. The result is free, and it is the first free candidate. */
  method UniqueSlug(base: string, taken: set<string>) returns (slug: string)
    ensures slug !in taken
    ensures exists k: nat :: k <= |taken| && IsLeastFree(base, taken, k) && slug == Candidate(base, k)
    ensures base !in taken ==> slug == base
    ensures base in taken ==> exists k: nat :: 1 <= k && slug == base + "-" + NatToString(k)
  {
    var unique := base;
    var counter := 1;
    while unique in taken
      invariant 1 <= counter <= |taken| + 1
      invariant unique == Candidate(base, counter - 1)
      invariant forall j :: 0 <= j < counter - 1 ==> Candidate(base, j) in taken
      decreases |taken| + 1 - counter
    {
      TakenPrefixBound(base, taken, counter);
      unique := base + "-" + NatToString(counter);
      counter := counter + 1;
    }
    slug := unique;
  }
}

=== FILE: text.dfy ===
/** The optional value the model uses for nullable columns, missing lookups
    and the result of an authentication attempt. */
module Optional {

  datatype Option<+T> = None | Some(value: T)
}

/** The pieces of Python string handling the blog application relies on:
    the character classes its regular expressions use, the whitespace that
    `str.split()` separates on, the ASCII case folding behind the database's
    case-insensitive comparisons, and decimal formatting of counters. */
module Text {

  /** `[A-Za-z]` */
  predicate IsAsciiLetter(c: char) {
    ('A' <= c <= 'Z') || ('a' <= c <= 'z')
  }

  predicate IsAsciiUpper(c: char) {
    'A' <= c <= 'Z'
  }

  /** `[0-9]` */
  predicate IsAsciiDigit(c: char) {
    '0' <= c <= '9'
  }

  /** The characters for which Python's `str.isspace()` holds; a bare
      `str.split()` separates on runs of exactly these. */
  predicate IsSpace(c: char) {
    || ('\t' <= c <= '\r')
    || ('\U{1C}' <= c <= '\U{1F}')
    || c == ' '
    || c == '\U{85}'
    || c == '\U{A0}'
    || c == '\U{1680}'
    || ('\U{2000}' <= c <= '\U{200A}')
    || c == '\U{2028}'
    || c == '\U{2029}'
    || c == '\U{202F}'
    || c == '\U{205F}'
    || c == '\U{3000}'
  }

  // ---------------------------------------------------------------------
  // Case-insensitive comparison
  // ---------------------------------------------------------------------

  function LowerChar(c: char): (d: char)
    ensures !IsAsciiUpper(d)
  {
    if IsAsciiUpper(c) then (c as int + 32) as char else c
  }

  /** The string with every ASCII upper-case letter lowered. */
  function Fold(s: string): (r: string)
    ensures |r| == |s|
    ensures forall i :: 0 <= i < |s| ==> r[i] == LowerChar(s[i])
  {
    seq(|s|, i requires 0 <= i < |s| => LowerChar(s[i]))
  }

  /** The `__iexact` comparison: equal once ASCII case is ignored. */
  predicate SameIgnoringCase(a: string, b: string) {
    Fold(a) == Fold(b)
  }

  /** Two characters a case-insensitive comparison treats as equal, stated
      without folding: identical, or the two cases of one ASCII letter. */
  predicate CharsMatchIgnoringCase(x: char, y: char) {
    || x == y
    || (IsAsciiLetter(x) && IsAsciiLetter(y) && (x as int - y as int == 32 || y as int - x as int == 32))
  }

  /** Case-insensitive equality is character-wise equality up to the case
      of ASCII letters, in both directions. */
  lemma SameIgnoringCaseIff(a: string, b: string)
    ensures SameIgnoringCase(a, b) <==>
              |a| == |b| && forall i :: 0 <= i < |a| ==> CharsMatchIgnoringCase(a[i], b[i])
  {
    if |a| == |b| && forall i :: 0 <= i < |a| ==> CharsMatchIgnoringCase(a[i], b[i]) {
      forall i | 0 <= i < |a|
        ensures Fold(a)[i] == Fold(b)[i]
      {
        assert CharsMatchIgnoringCase(a[i], b[i]);
      }
    }
    if SameIgnoringCase(a, b) {
      forall i | 0 <= i < |a|
        ensures CharsMatchIgnoringCase(a[i], b[i])
      {
        assert LowerChar(a[i]) == Fold(a)[i] == Fold(b)[i] == LowerChar(b[i]);
      }
    }
  }

  // ---------------------------------------------------------------------
  // Decimal formatting (`str(n)` / f-string interpolation of an int)
  // ---------------------------------------------------------------------

  function DigitChar(d: nat): (c: char)
    requires d < 10
    ensures IsAsciiDigit(c)
  {
    ('0' as int + d) as char
  }

  function DigitValue(c: char): (d: nat)
    requires IsAsciiDigit(c)
    ensures d < 10
  {
    c as int - '0' as int
  }

  /** Python's `str(n)` for a non-negative integer: decimal digits, no
      leading zero except for zero itself. */
  function NatToString(n: nat): (s: string)
    ensures |s| >= 1
    ensures forall i :: 0 <= i < |s| ==> IsAsciiDigit(s[i])
    ensures s[0] == '0' ==> n == 0
    decreases n
  {
    if n < 10 then [DigitChar(n)] else NatToString(n / 10) + [DigitChar(n % 10)]
  }

  /** Python's `int(s)` on a string of decimal digits. */
  function StringToNat(s: string): nat
    requires forall i :: 0 <= i < |s| ==> IsAsciiDigit(s[i])
    decreases |s|
  {
    if |s| == 0 then 0 else StringToNat(s[..|s| - 1]) * 10 + DigitValue(s[|s| - 1])
  }

  /** Reading back a formatted number gives the number. */
  lemma {:induction false} DecimalRoundTrip(n: nat)
    ensures StringToNat(NatToString(n)) == n
    decreases n
  {
    if n >= 10 {
      var prefix := NatToString(n / 10);
      var s := NatToString(n);
      assert s == prefix + [DigitChar(n % 10)];
      assert s[..|s| - 1] == prefix;
      DecimalRoundTrip(n / 10);
    }
  }

  /** Distinct numbers format to distinct strings. */
  lemma NatToStringInjective(a: nat, b: nat)
    ensures NatToString(a) == NatToString(b) ==> a == b
  {
    DecimalRoundTrip(a);
    DecimalRoundTrip(b);
  }
}

=== FILE: views.dfy ===
/** The post detail page's view counter: within one browser session a post's
    `views` is incremented the first time the session shows that post and
    never again, guarded by a per-post session flag. */
module Views {
  import opened Optional
  import opened Text
  import opened Models

  /** The session's key-value store, restricted to the flags this page sets. */
  type Session = map<string, bool>

  /** The flag name for a post: `post_viewed_` followed by its id. */
  function ViewedKey(id: nat): string {
    "post_viewed_" + NatToString(id)
  }

  /** `session.get(key, False)` for the post's flag. */
  predicate HasViewed(session: Session, id: nat) {
    ViewedKey(id) in session && session[ViewedKey(id)]
  }

  /** Posts with different ids have different flags. */
  lemma ViewedKeyInjective(a: nat, b: nat)
    ensures ViewedKey(a) == ViewedKey(b) ==> a == b
  {
    var prefix := "post_viewed_";
    assert ViewedKey(a)[|prefix|..] == NatToString(a);
    assert ViewedKey(b)[|prefix|..] == NatToString(b);
    NatToStringInjective(a, b);
  }

  /** The row holding `slug`, if any (`get_object_or_404` by slug). */
  function FindBySlug(table: Table, slug: string): (r: Option<nat>)
    ensures r.Some? ==> r.value < |table| && table[r.value].slug == slug
    ensures r.None? ==> forall i :: 0 <= i < |table| ==> table[i].slug != slug
  {
    if |table| == 0 then None
    else if table[|table| - 1].slug == slug then Some(|table| - 1)
    else FindBySlug(table[..|table| - 1], slug)
  }

  /** The row's id; every stored row has one. */
  function IdAt(table: Table, i: nat): nat
    requires WellFormed(table) && i < |table|
  {
    table[i].pk.value
  }

  /** The response of the detail view and the state it leaves behind: either
      not found, or the page for the row at `index` together with the table
      and session after the visit. */
  datatype Page = NotFound | Shown(index: nat, table: Table, session: Session)

  /** `blog_detail`. The increment is written with `update_fields=['views']`,
      so of everything `Post.save` derives on the instance only the view
      count reaches the table. */
  function BlogDetail(table: Table, session: Session, slug: string): (r: Page)
    requires WellFormed(table)
    ensures r.NotFound? <==> forall i :: 0 <= i < |table| ==> table[i].slug != slug
    ensures r.Shown? ==> r.index < |table| && table[r.index].slug == slug
    ensures r.Shown? ==> |r.table| == |table| && WellFormed(r.table)
    ensures r.Shown? && !HasViewed(session, IdAt(table, r.index)) ==>
              && r.table[r.index].views == table[r.index].views + 1
              && r.session == session[ViewedKey(IdAt(table, r.index)) := true]
    ensures r.Shown? && HasViewed(session, IdAt(table, r.index)) ==>
              r.table == table && r.session == session
    ensures r.Shown? ==> r.table[r.index] == table[r.index].(views := r.table[r.index].views)
    ensures r.Shown? ==> forall j :: 0 <= j < |table| && j != r.index ==> r.table[j] == table[j]
  {
    match FindBySlug(table, slug)
    case None => NotFound
    case Some(i) =>
      var key := ViewedKey(IdAt(table, i));
      if key in session && session[key] then Shown(i, table, session)
      else
        var row := table[i].(views := table[i].views + 1);
        Shown(i, table[i := row], session[key := true])
  }

  /** A visit changes neither another post's view count nor its flag. */
  lemma VisitLeavesOtherPostsAlone(table: Table, session: Session, slug: string, j: nat)
    requires WellFormed(table)
    requires j < |table|
    requires BlogDetail(table, session, slug).Shown?
    requires BlogDetail(table, session, slug).index != j
    ensures BlogDetail(table, session, slug).table[j] == table[j]
    ensures HasViewed(BlogDetail(table, session, slug).session, IdAt(table, j)) == HasViewed(session, IdAt(table, j))
  {
    var r := BlogDetail(table, session, slug);
    ViewedKeyInjective(IdAt(table, r.index), IdAt(table, j));
  }

  /** Showing a post twice in one session counts it at most once: the second
      visit changes nothing. */
  lemma RepeatVisitCountsOnce(table: Table, session: Session, slug: string)
    requires WellFormed(table)
    requires BlogDetail(table, session, slug).Shown?
    ensures var first := BlogDetail(table, session, slug);
            var second := BlogDetail(first.table, first.session, slug);
            && second.Shown?
            && second.index == first.index
            && second.table == first.table
            && second.session == first.session
  {
    var first := BlogDetail(table, session, slug);
    var i := first.index;
    var second := BlogDetail(first.table, first.session, slug);
    assert first.table[i].slug == slug;
    assert IdAt(first.table, i) == IdAt(table, i);
  }

  /** Two sessions that have not seen a post each count it once: after a
      visit from each, its count has gone up by exactly two. */
  lemma TwoSessionsCountTwice(table: Table, s1: Session, s2: Session, slug: string)
    requires WellFormed(table)
    requires BlogDetail(table, s1, slug).Shown?
    requires !HasViewed(s1, IdAt(table, BlogDetail(table, s1, slug).index))
    requires !HasViewed(s2, IdAt(table, BlogDetail(table, s1, slug).index))
    ensures var first := BlogDetail(table, s1, slug);
            var second := BlogDetail(first.table, s2, slug);
            && second.Shown?
            && second.index == first.index
            && second.table[second.index].views == table[first.index].views + 2
  {
    var first := BlogDetail(table, s1, slug);
    var i := first.index;
    var second := BlogDetail(first.table, s2, slug);
    assert first.table[i].slug == slug;
    assert IdAt(first.table, i) == IdAt(table, i);
  }
}
